=== FILE: README.md ===
# ceph-fact configuration redactor, modelled in Dafny

`ceph-fact` asks a Ceph cluster's monitors a fixed list of status questions and
prints the answers as one JSON document for Ansible facts. Before the cluster's
`config dump` goes into that document, `filter_config` redacts it: every entry
whose name, section or value matches one of the configured regular expressions
gets its value replaced by `** HIDDEN **`. By default the expressions are
`(?i)password`, `(?i)key` and `(?i)cert`, and the caller can add more.

This project models that redactor and the small pure helpers around it:

- `PyStr` (`pystr.dfy`): the Python `str` operations the redactor relies on,
  written out with Python's semantics. These are `rfind`, slicing and indexing
  with negative positions, `splitlines`, `'\n'.join` and string ordering.
- `Redact` (`redact.dfy`): the record form of the dump (`json` and `json-pretty`
  modes), the placeholder, the default patterns and the run's filter list.
- `PlainRedact` (`plain.dfy`): the plain-text form of the dump. This covers both
  the `ceph.conf` rewrite and the tabular VALUE-column rewrite, quirks included.
- `FilterConfig` (`filterconfig.dfy`): `filter_config` itself. It handles the
  empty-data short cut, dispatches on the mode and refuses unknown modes.
- `Monitor` (`monitor.dfy`): the command object built by `ceph_mon_command`,
  the metadata-service queries with their two branches, and report-key naming.
- `DeviceHealth` (`devices.dfy`): keeping only the latest health-metrics record
  per device.
- `LiteralPatterns` (`literal.dfy`): a concrete matcher for plain-word patterns,
  used for a worked example.
- `Wrappers` (`wrappers.dfy`): `Option` and `Result`.

Regular-expression search is not modelled. A `Matcher` is any total function
`(Pattern, string) -> bool`, and every property holds for whichever regex engine
and valid patterns are used. Monitor answers are a function from command object
to output buffer. JSON decoding and encoding are the `loads`/`dumps` parameters
of a `JsonCodec`.

Notes on the code's behaviour:

- The metadata-service queries branch on whether `mds dump` answered.
  An empty answer means a newer cluster: keys `metadata`, `dump` and `status`.
  A non-empty answer means an older one: `metadata`, `dump`, `stat` and `map`.
- Category report keys carry a `.json` suffix, for example `mds_status.json`; the cluster id is stored under `fsid`.
- Plain-text dumps are redacted line by line, with the quirks of the code's
  string slicing: see `PlainRedact.ConfRewriteWithoutEquals`,
  `PlainRedact.ConfFileSecondMatchAddsSpace` and
  `PlainRedact.ColumnRewriteKeepsOneChar`.

## Model

| member | source | states |
|---|---|---|
| Redact.ConfigFilters | ceph-fact.py:212-213 | the run filters with the three built-in patterns first, then the custom patterns in the order given |
| Redact.ConfigFiltersHit | ceph-fact.py:212-213 | with the run's filter list (the built-in patterns of ceph-fact.py:29-33 followed by the custom ones), a record is hidden exactly when a built-in pattern or a custom pattern hits it |
| Redact.ApplyPattern | ceph-fact.py:265-268 | one pattern on one record: name and section never change; the value becomes the placeholder if the pattern is found in any of the three fields, else the record is unchanged |
| Redact.RedactedStep | ceph-fact.py:263-268 | applying one more pattern to an already redacted record gives the redaction under the longer list: a hidden value stays hidden, and otherwise the new pattern alone decides |
| Redact.FilterRecords | ceph-fact.py:261-268 | the loop as written (patterns in order, records from last to first) keeps the count, order, names and sections; a value becomes exactly the placeholder when some filter hits the original record, and the record is unchanged otherwise |
| Redact.RedactIdempotent | ceph-fact.py:263-268 | redacting the redacted dump again with the same filters gives the same dump |
| PlainRedact.PlainLayout | ceph-fact.py:242-245 | a tabular dump takes its VALUE offset from the last occurrence of `VALUE` in the header and its RO offset from the last occurrence of `RO`, each -1 when the marker is absent; a `ceph.conf` file uses no offsets |
| PlainRedact.ConfRewrite | ceph-fact.py:253 | a rewritten `ceph.conf` line ends with ` = ** HIDDEN **` and keeps what precedes the last `=`; a line without `=` loses its last character |
| PlainRedact.ColumnRewrite | ceph-fact.py:256-258 | a rewritten tabular line is the text before the VALUE offset, the placeholder, a space and the one character at the `RO` offset, counted from the end when that offset is negative; it fails exactly when the `RO` offset is outside the line |
| PlainRedact.LineAfterFailureSticks | ceph-fact.py:247-258 | once a line's rewrite has failed, later patterns cannot make the run succeed |
| PlainRedact.ConfFileNeverFails | ceph-fact.py:250-253 | redacting a `ceph.conf` line never fails |
| PlainRedact.UnmatchedLineKept | ceph-fact.py:247-250 | a line that no pattern matches is left as it was |
| PlainRedact.MatchedConfLineHidden | ceph-fact.py:247-253 | in a `ceph.conf` file, a line some pattern matches ends up ending with ` = ** HIDDEN **` |
| PlainRedact.SweepPattern | ceph-fact.py:248-258 | one pattern's pass over the lines from the last down to 1 moves every non-header line one pattern further along its line-by-line redaction, keeps the header, and fails only on a tabular dump whose whole run then fails |
| PlainRedact.FilterLines | ceph-fact.py:241-259 | the loop as written (patterns in order, lines from last down to 1) agrees with the line-by-line reference; it keeps the line count and the header line; it never fails on `ceph.conf`; it leaves unmatched lines alone |
| PlainRedact.ConfRewriteWithoutEquals | ceph-fact.py:253 | `secret` becomes `secre = ** HIDDEN **`, because `rfind` answers -1 and `[:-1]` drops a character |
| PlainRedact.ConfRewriteRepeated | ceph-fact.py:253 | rewriting an already rewritten `ceph.conf` line adds one more space before the `=` |
| PlainRedact.ConfFileSecondMatchAddsSpace | ceph-fact.py:247-253 | when two patterns match `key = v`, the line becomes `key   = ** HIDDEN **`, so plain-mode redaction is not idempotent |
| PlainRedact.HeaderColumnOffsets | ceph-fact.py:244-245 | for the header `OPTION VALUE  RO` the offsets are 7 and 14 |
| PlainRedact.ColumnRewriteKeepsOneChar | ceph-fact.py:256-258 | with those offsets, `key    secret true` keeps only the `t` at the `RO` offset after the placeholder |
| FilterConfig.FilterConfig | ceph-fact.py:215-277 | empty data comes back unchanged in every mode; plain data is split into lines, filtered by the line reference and joined; JSON data is decoded, redacted by the record reference and encoded; a failed decode or rewrite is an error; any other mode is refused |
| PyStr.RFind | ceph-fact.py:244-245 | `rfind` answers the last position where the substring occurs, or -1 when it does not occur |
| PyStr.SliceTo | ceph-fact.py:253-256 | Python's `s[:j]`: the first `j` characters, or all but the last `-j` when `j` is negative, clamped to the string |
| PyStr.CharAt | ceph-fact.py:258 | Python's `s[i]`: the one character at `i`, counted from the end when `i` is negative |
| PyStr.SplitLines | ceph-fact.py:241 | `splitlines` gives no lines for empty text and at least one for non-empty text, and the first line (the header of a tabular dump) is the text up to its first line boundary |
| PyStr.SplitLinesHaveNoBreaks | ceph-fact.py:241 | no line that `splitlines` gives holds a line boundary |
| PyStr.JoinLines | ceph-fact.py:259 | Python's `'\n'.join(lines)`: the text starts with the first line, a `\n` follows it when there are more lines, and its length is the lines' total length plus one separator between each pair |
| PyStr.SplitJoinRoundTrip | ceph-fact.py:259 | joining lines with `\n` and splitting again gives the lines back, if no line holds a boundary and the last line is not empty |
| PyStr.JoinSplitRoundTrip | ceph-fact.py:241-259 | for text whose only boundary is `\n`, splitting and joining gives the text back, without its final `\n` when it ends with one |
| PyStr.JoinSplitFolds | ceph-fact.py:241-259 | splitting into lines and joining with `\n` turns every line boundary, `\r\n` counted as one, into `\n`, and drops a boundary at the very end |
| PyStr.FoldLeavesOnlyNewlines | ceph-fact.py:241-259 | after folding, `\n` is the only line boundary left in the text, as after a split and join |
| PyStr.CrLfFolded | ceph-fact.py:241-259 | `a\r\nb\n` comes back from plain-mode redaction's split and join as `a\nb` |
| PyStr.LastOccurrenceUnique | ceph-fact.py:244-245 | a text has at most one last occurrence of a marker, so the offsets are determined by the header |
| Monitor.MonCommand | ceph-fact.py:113-115 | the command object holds the keyword arguments plus `prefix` and `format`, and those two override same-named arguments |
| Monitor.MonCommandOverrides | ceph-fact.py:113-115 | keyword arguments named `prefix` or `format` have no effect on the command object |
| Monitor.MdsInfo | ceph-fact.py:151-166 | an empty `mds dump` answer gives keys metadata, dump (from `fs dump`) and status (`fs status` as json-pretty); otherwise metadata, dump, stat and map |
| Monitor.Flatten | ceph-fact.py:309-311 | each sub-key `k` of a category is stored under `<category>_<k>.json` with its value unchanged, and no two sub-keys collide |
| Monitor.MdsReportKeys | ceph-fact.py:151-166 | the metadata-service report keys are exactly `mds_metadata.json`, `mds_dump.json`, `mds_status.json` on a newer cluster, and `mds_metadata.json`, `mds_dump.json`, `mds_stat.json`, `mds_map.json` on an older one |
| PyStr.StrLe | ceph-fact.py:194 | Python's string order, lexicographic by code point with a prefix first: a prefix is never greater, and a non-empty string is never at most the empty one (with `StrLeReflexive`, `StrLeTotal`, `StrLeTransitive`, `StrLeAntisymmetric` it is a total order) |
| PyStr.StrLeTotal | ceph-fact.py:194 | any two strings are comparable |
| PyStr.StrLeAntisymmetric | ceph-fact.py:194 | two strings each at most the other are equal, so the greatest key is unique |
| DeviceHealth.LatestMetrics | ceph-fact.py:190-196 | the kept metrics are empty when there are none, and otherwise exactly one key: the greatest key in Python string order, with its original record |
| DeviceHealth.KeepsLatestUnique | ceph-fact.py:193-196 | what is kept of a device's metrics is fully determined by the metrics |
| DeviceHealth.AttachLatestMetrics | ceph-fact.py:188-196 | every device keeps its id and other attributes, and gets only the latest record of the metrics fetched for its id |
| DeviceHealth.LatestOfTwo | ceph-fact.py:193-196 | of two metric keys, only the greater one in Python string order is kept, with its record |
| DeviceHealth.LatestOfTwoMonths | ceph-fact.py:193-196 | of metrics keyed `2023-01-01` and `2023-02-01`, only `2023-02-01` is kept |
| LiteralPatterns.NoDefaultMatch | ceph-fact.py:29-33 | no built-in pattern matches an ASCII string that lacks `k`, `c` and one letter of `password` |
| LiteralPatterns.DefaultFiltersExample | ceph-fact.py:263-268 | of `mon_host`, `mon_allow_pool_delete` and `some_password`, only the `some_password` value is hidden under the built-in patterns |

## Left out

- Connecting to the cluster is left out: `get_rados_connection`, the `r.mon_command` call itself, `spawn` and `read_file` are I/O. Monitor answers are a function parameter instead.
- The list of status queries in `collect_ceph_information` and the `get_*_info` functions other than the metadata-service and device-health ones are left out. They are fixed enumerations of monitor queries; only the key naming (`Monitor.Flatten`) is modelled.
- Logging, argument parsing, the top-level exception handler and the final `json.dumps`/`print` are glue and are left out.
- JSON text is not modelled. Decoding and encoding are the `loads`/`dumps` parameters of `FilterConfig.JsonCodec`, which include the `json-pretty` indentation and key sorting.
- The UTF-8 decoding of byte input and the `.encode('utf-8')` of the result are not modelled. Data is a string throughout.
- Regular-expression semantics, including `(?i)`, are not modelled: matching is a parameter. `LiteralPatterns` covers only plain-word patterns, with ASCII case folding.
- An invalid custom pattern (for example `(`) makes `re.search` raise `re.error` in the source, and nothing catches it. A total `Matcher` cannot represent that error, so every property here assumes the patterns compile.
- Redact.Entry: a record has exactly the `name`, `section` and `value` fields, and other fields of a real dump entry are not carried. A record missing `name` raises `KeyError` in the source. One missing `section` or `value` raises it only when the search reaches that field. One missing `value` whose name or section matches the first pattern instead gains `value` = `** HIDDEN **`. None of these can be represented.
- The global `DEFAULT_CONFIG_FILTERS` list is extended in place, so custom patterns pile up across calls in one process. This is not modelled: the filter list of a run is an explicit value (`Redact.ConfigFilters`).
- `sys.exit(1)` for an unsupported mode is modelled as the `UnsupportedMode` error, and the `IndexError` of a too-short tabular line as `IndexOutOfRange`.
- Plain-mode idempotence is not claimed, because it does not hold (`PlainRedact.ConfFileSecondMatchAddsSpace`).
- DeviceHealth.AttachLatestMetrics: a device's metrics arrive already decoded, as a map. An empty monitor answer arrives as an empty map, and both give empty metrics, as in the source. The `device ls` and `device check-health` calls and the JSON encoding of the device list are left out. So is the empty `device ls` answer, which gives an empty `status`.
- Timeouts travel with the monitor call and do not shape the command object; what a timed-out call does is part of the left-out monitor call.

=== FILE: devices.dfy ===
/**
  The device-health part of the collector: for each listed device, the health
  metrics the monitor returns are reduced to the single record under the
  greatest key (the keys are timestamps, so this is the most recent one).

  Decoding of the monitor's JSON replies is not modelled: a device arrives as
  its id and its other attributes, and its metrics arrive as a map, empty when
  the monitor answered with nothing.
 */
module DeviceHealth {
  import opened PyStr

  /**
    A listed device: its id, its other attributes, and the metrics attached
    to it. `attrs` holds neither a `devid` nor a `metrics` key: in the source
    both live in the same dictionary, and the collector overwrites `metrics`.
   */
  datatype Device<J> = Device(devid: string, attrs: map<string, J>, metrics: map<string, J>)

  /**
    `kept` is what the source keeps of `metrics`: nothing when there are no
    metrics, and otherwise exactly one key, the greatest in Python's string
    order, with its original record.
   */
  ghost predicate KeepsLatest<J>(metrics: map<string, J>, kept: map<string, J>) {
    && kept.Keys <= metrics.Keys
    && (forall k :: k in kept ==> kept[k] == metrics[k])
    && (|kept| == 0 <==> |metrics| == 0)
    && |kept| <= 1
    && (forall k, k' :: k in kept && k' in metrics ==> StrLe(k', k))
  }

  /** What is kept of a device's metrics is determined by the metrics alone. */
  lemma KeepsLatestUnique<J>(metrics: map<string, J>, a: map<string, J>, b: map<string, J>)
    requires KeepsLatest(metrics, a) && KeepsLatest(metrics, b)
    ensures a == b
  {
    if |metrics| > 0 {
      var x :| x in a;
      var y :| y in b;
      StrLeAntisymmetric(x, y);
      SingletonKeys(a, x);
      SingletonKeys(b, y);
    }
  }

  lemma SingletonKeys<J>(m: map<string, J>, x: string)
    requires x in m && |m| <= 1
    ensures m.Keys == {x}
  {
    var others := m.Keys - {x};
    assert |others| == |m.Keys| - 1 == 0;
    assert m.Keys == others + {x};
  }

  /**
    Keep the greatest metric key and its record, or nothing when there are
    no metrics. The source sorts the keys and takes the last one; the
    greatest key is what that yields, and it is found here by one scan.
   */
  method LatestMetrics<J>(metrics: map<string, J>) returns (kept: map<string, J>)
    ensures KeepsLatest(metrics, kept)
  {
    if |metrics| == 0 {
      return map[];
    }
    var rest := metrics.Keys;
    var best :| best in rest;
    rest := rest - {best};
    StrLeReflexive(best);
    while rest != {}
      invariant rest <= metrics.Keys && best in metrics
      invariant forall k :: k in metrics && k !in rest ==> StrLe(k, best)
      decreases rest
    {
      var x :| x in rest;
      StrLeTotal(best, x);
      StrLeReflexive(x);
      if StrLe(best, x) {
        forall k | k in metrics && k !in rest && k != x
          ensures StrLe(k, x)
        {
          StrLeTransitive(k, best, x);
        }
        best := x;
      }
      rest := rest - {x};
    }
    kept := map[best := metrics[best]];
  }

  /**
    Attach to every listed device, in list order, what is kept of the
    metrics `fetch` returns for its id. Nothing else of a device changes.
   */
  method AttachLatestMetrics<J>(devices: seq<Device<J>>, fetch: string -> map<string, J>)
    returns (r: seq<Device<J>>)
    ensures |r| == |devices|
    ensures forall i :: 0 <= i < |devices| ==>
      r[i].devid == devices[i].devid && r[i].attrs == devices[i].attrs
    ensures forall i :: 0 <= i < |devices| ==> KeepsLatest(fetch(devices[i].devid), r[i].metrics)
  {
    r := [];
    var i := 0;
    while i < |devices|
      invariant 0 <= i <= |devices|
      invariant |r| == i
      invariant forall j :: 0 <= j < i ==> r[j].devid == devices[j].devid && r[j].attrs == devices[j].attrs
      invariant forall j :: 0 <= j < i ==> KeepsLatest(fetch(devices[j].devid), r[j].metrics)
    {
      var kept := LatestMetrics(fetch(devices[i].devid));
      r := r + [devices[i].(metrics := kept)];
      i := i + 1;
    }
  }

  lemma MonthOrder()
    ensures StrLe("2023-01-01", "2023-02-01") && !StrLe("2023-02-01", "2023-01-01")
  {
    var year: string := "2023-0";
    var jan: string := "1-01";
    var feb: string := "2-01";
    assert year + jan == "2023-01-01" && year + feb == "2023-02-01";
    StrLeSharedPrefix(year, jan, feb);
    StrLeSharedPrefix(year, feb, jan);
  }

  /** Of two metric keys, only the greater one is kept. */
  lemma LatestOfTwo<J>(metrics: map<string, J>, kept: map<string, J>, early: string, late: string)
    requires metrics.Keys == {early, late}
    requires StrLe(early, late)
    requires KeepsLatest(metrics, kept)
    ensures kept == map[late := metrics[late]]
  {
    var expected := map[late := metrics[late]];
    StrLeReflexive(late);
    assert expected.Keys == {late};
    KeepsLatestUnique(metrics, kept, expected);
  }

  /**
    Two monthly metric records: only the later month is kept.
   */
  lemma LatestOfTwoMonths<J>(metrics: map<string, J>, kept: map<string, J>)
    requires metrics.Keys == {"2023-01-01", "2023-02-01"}
    requires KeepsLatest(metrics, kept)
    ensures kept == map["2023-02-01" := metrics["2023-02-01"]]
  {
    MonthOrder();
    LatestOfTwo(metrics, kept, "2023-01-01", "2023-02-01");
  }
}

=== FILE: filterconfig.dfy ===
/**
  `filter_config`: the entry point of the redactor, dispatching on the output
  mode. JSON text is not modelled; decoding and encoding of the record list
  are given as the `loads`/`dumps` parameters of a `JsonCodec`, and only the
  record list in between is redacted by the model.
 */
module FilterConfig {
  import opened Wrappers
  import opened PyStr
  import opened Redact
  import opened PlainRedact

  /** Why a call does not return filtered data. */
  datatype Failure =
    | MalformedDump    // the JSON text is not a list of name/section/value records
    | IndexOutOfRange  // a tabular line is too short for the `RO` offset of the header
    | UnsupportedMode  // neither plain nor JSON: the source exits with status 1

  /**
    Decoding and encoding of the record list. `dumps(records, pretty)` is
    compact output when `pretty` is false and sorted, indented output otherwise.
   */
  datatype JsonCodec = JsonCodec(
    loads: string -> Option<seq<Entry>>,
    dumps: (seq<Entry>, bool) -> string)

  predicate IsJsonMode(mode: string) {
    mode == "json" || mode == "json-pretty"
  }

  /**
    Filter a raw configuration dump. Empty data is returned as it is in every
    mode; otherwise plain data is filtered line by line and JSON data record
    by record, and any other mode is refused.
   */
  method FilterConfig(filters: seq<Pattern>, m: Matcher, codec: JsonCodec, data: string, mode: string, isConffile: bool)
    returns (r: Result<string, Failure>)
    ensures data == [] ==> r == Success(data)
    ensures data != [] && mode != "plain" && !IsJsonMode(mode) ==> r == Failure(UnsupportedMode)
    ensures data != [] && IsJsonMode(mode) ==>
      r == match codec.loads(data)
           case None => Failure(MalformedDump)
           case Some(records) => Success(codec.dumps(RedactRecords(filters, m, records), mode == "json-pretty"))
    ensures data != [] && mode == "plain" ==>
      var lines := SplitLines(data);
      r == match FilterLinesRef(filters, m, PlainLayout(isConffile, lines[0]), lines)
           case None => Failure(IndexOutOfRange)
           case Some(out) => Success(JoinLines(out))
    ensures data != [] && mode == "plain" && isConffile ==> r.Success?
  {
    if data == [] {
      return Success(data);
    }
    if mode == "plain" {
      var lines := SplitLines(data);
      var layout := PlainLayout(isConffile, lines[0]);
      var out := FilterLines(filters, m, layout, lines);
      if out.None? {
        return Failure(IndexOutOfRange);
      }
      return Success(JoinLines(out.value));
    } else if IsJsonMode(mode) {
      var parsed := codec.loads(data);
      if parsed.None? {
        return Failure(MalformedDump);
      }
      var records := FilterRecords(filters, m, parsed.value);
      return Success(codec.dumps(records, mode == "json-pretty"));
    } else {
      return Failure(UnsupportedMode);
    }
  }
}

=== FILE: literal.dfy ===
/**
  A concrete matcher for patterns that are plain words, such as the three
  built-in ones: `(?i)word` is a case-insensitive search for `word` (ASCII
  letters only), any other pattern a case-sensitive search for itself. It
  lets the redactor be run on a worked example; the redactor's properties
  do not depend on it.
 */
module LiteralPatterns {
  import opened Redact

  function LowerAscii(c: char): char {
    if 'A' <= c <= 'Z' then (c as int + 32) as char else c
  }

  predicate SameChar(a: char, b: char, fold: bool) {
    if fold then LowerAscii(a) == LowerAscii(b) else a == b
  }

  /** `s` starts with `word`. */
  predicate StartsWith(s: string, word: string, fold: bool) {
    if word == [] then true
    else if s == [] then false
    else SameChar(s[0], word[0], fold) && StartsWith(s[1..], word[1..], fold)
  }

  /** `word` occurs somewhere in `s`. */
  predicate Contains(s: string, word: string, fold: bool) {
    StartsWith(s, word, fold) || (s != [] && Contains(s[1..], word, fold))
  }

  predicate LiteralMatch(p: Pattern, s: string) {
    if |p| >= 4 && p[..4] == "(?i)" then Contains(s, p[4..], true) else Contains(s, p, false)
  }

  lemma {:induction false} StartsWithChar(s: string, word: string, fold: bool, i: nat)
    requires StartsWith(s, word, fold) && i < |word|
    ensures i < |s| && SameChar(s[i], word[i], fold)
    decreases i
  {
    if i > 0 {
      StartsWithChar(s[1..], word[1..], fold, i - 1);
    }
  }

  /** A word with a character that does not occur in `s` does not occur in `s` either. */
  lemma {:induction false} AbsentCharNotContained(s: string, word: string, fold: bool, i: nat)
    requires i < |word|
    requires forall k :: 0 <= k < |s| ==> !SameChar(s[k], word[i], fold)
    ensures !Contains(s, word, fold)
    decreases |s|
  {
    if StartsWith(s, word, fold) {
      StartsWithChar(s, word, fold, i);
    }
    if s != [] {
      AbsentCharNotContained(s[1..], word, fold, i);
    }
  }

  lemma {:induction false} StartsWithItself(word: string)
    ensures StartsWith(word, word, true)
    decreases |word|
  {
    if word != [] {
      StartsWithItself(word[1..]);
    }
  }

  lemma {:induction false} ContainsAt(s: string, word: string, fold: bool, k: nat)
    requires k <= |s| && StartsWith(s[k..], word, fold)
    ensures Contains(s, word, fold)
    decreases k
  {
    if k > 0 {
      assert s[1..][k - 1..] == s[k..];
      ContainsAt(s[1..], word, fold, k - 1);
    }
  }

  /**
    No built-in pattern matches an ASCII string that lacks the `i`-th letter
    of "password", the letter k and the letter c. (Outside ASCII, Python's
    case-insensitive search also folds the Kelvin sign to k and the long s
    to s, which this matcher does not.)
   */
  lemma NoDefaultMatch(s: string, i: nat)
    requires i < 8
    requires forall k :: 0 <= k < |s| ==> s[k] < '\U{80}'
    requires forall k :: 0 <= k < |s| ==> !SameChar(s[k], "password"[i], true)
    requires forall k :: 0 <= k < |s| ==> !SameChar(s[k], 'k', true) && !SameChar(s[k], 'c', true)
    ensures forall j :: 0 <= j < |DefaultConfigFilters| ==> !LiteralMatch(DefaultConfigFilters[j], s)
  {
    var fs := DefaultConfigFilters;
    assert fs[0][4..] == "password" && fs[1][4..] == "key" && fs[2][4..] == "cert";
    AbsentCharNotContained(s, "password", true, i);
    AbsentCharNotContained(s, "key", true, 0);
    AbsentCharNotContained(s, "cert", true, 0);
  }

  lemma ExampleRecordsKept()
    ensures Redacted(DefaultConfigFilters, LiteralMatch, Entry("mon_host", "global", "10.0.0.1"))
      == Entry("mon_host", "global", "10.0.0.1")
    ensures Redacted(DefaultConfigFilters, LiteralMatch, Entry("mon_allow_pool_delete", "global", "true"))
      == Entry("mon_allow_pool_delete", "global", "true")
  {
    NoDefaultMatch("mon_host", 0);
    NoDefaultMatch("global", 0);
    NoDefaultMatch("10.0.0.1", 0);
    NoDefaultMatch("mon_allow_pool_delete", 6);
    NoDefaultMatch("true", 0);
  }

  lemma ExampleRecordHidden()
    ensures Redacted(DefaultConfigFilters, LiteralMatch, Entry("some_password", "client", "s3cr3t"))
      == Entry("some_password", "client", Placeholder)
  {
    var e := Entry("some_password", "client", "s3cr3t");
    PasswordHit("some_password");
    assert PatternHits(LiteralMatch, DefaultConfigFilters[0], e);
  }

  /** The built-in `(?i)password` pattern matches any string whose last eight characters are `password`. */
  lemma PasswordHit(s: string)
    requires |s| >= 8 && s[|s| - 8..] == "password"
    ensures LiteralMatch(DefaultConfigFilters[0], s)
  {
    assert DefaultConfigFilters[0][4..] == "password";
    StartsWithItself("password");
    ContainsAt(s, "password", true, |s| - 8);
  }

  /**
    Three records of a configuration dump under the built-in patterns: only
    the one whose name mentions a password has its value hidden.
   */
  lemma DefaultFiltersExample()
    ensures RedactRecords(DefaultConfigFilters, LiteralMatch, [
        Entry("mon_host", "global", "10.0.0.1"),
        Entry("mon_allow_pool_delete", "global", "true"),
        Entry("some_password", "client", "s3cr3t")])
      == [
        Entry("mon_host", "global", "10.0.0.1"),
        Entry("mon_allow_pool_delete", "global", "true"),
        Entry("some_password", "client", Placeholder)]
  {
    var records := [
        Entry("mon_host", "global", "10.0.0.1"),
        Entry("mon_allow_pool_delete", "global", "true"),
        Entry("some_password", "client", "s3cr3t")];
    ExampleRecordsKept();
    ExampleRecordHidden();
    RedactThree(DefaultConfigFilters, LiteralMatch, records[0], records[1], records[2]);
  }

  lemma RedactThree(filters: seq<Pattern>, m: Matcher, a: Entry, b: Entry, c: Entry)
    ensures RedactRecords(filters, m, [a, b, c]) == [Redacted(filters, m, a), Redacted(filters, m, b), Redacted(filters, m, c)]
  {
  }
}

=== FILE: monitor.dfy ===
/**
  The monitor-command side of the collector: the command object sent to a
  monitor, the metadata-service queries (whose set of report keys depends on
  the monitor's answer) and the naming of report keys.

  The monitor itself is not modelled: a `Reply` gives, for each command
  object, the output buffer the monitor answers with. Timeouts only travel
  with the call and do not shape the command, so they are left out.
 */
module Monitor {

  /** Extra named arguments of a monitor command, and the command object itself. */
  type CommandArgs = map<string, string>

  /** The monitor's output buffer for a command object. */
  type Reply = CommandArgs -> string

  /**
    The command object for `command`: a copy of the caller's keyword
    arguments with `prefix` and `format` set, overriding same-named
    arguments. The caller's map is a value and is left as it was.
   */
  function MonCommand(command: string, outputFormat: string, kwargs: CommandArgs): (cmd: CommandArgs)
    ensures cmd.Keys == kwargs.Keys + {"prefix", "format"}
    ensures cmd["prefix"] == command && cmd["format"] == outputFormat
    ensures forall k :: k in kwargs && k != "prefix" && k != "format" ==> cmd[k] == kwargs[k]
  {
    kwargs["prefix" := command]["format" := outputFormat]
  }

  /** Keyword arguments named `prefix` or `format` have no effect on the command object. */
  lemma MonCommandOverrides(command: string, outputFormat: string, kwargs: CommandArgs)
    ensures MonCommand(command, outputFormat, kwargs) == MonCommand(command, outputFormat, kwargs - {"prefix", "format"})
  {
    var a := MonCommand(command, outputFormat, kwargs);
    var b := MonCommand(command, outputFormat, kwargs - {"prefix", "format"});
    assert a.Keys == b.Keys;
    forall k | k in a
      ensures a[k] == b[k]
    {
    }
  }

  /** The reply to a command without extra arguments. */
  function Ask(reply: Reply, command: string, outputFormat: string): string {
    reply(MonCommand(command, outputFormat, map[]))
  }

  /**
    The metadata-service queries. An empty answer to `mds dump` means a
    newer cluster: the dump is taken from `fs dump` and `fs status` is added
    (always as `json-pretty`). Otherwise the older `mds stat` and
    `mds getmap` queries are added.
   */
  function MdsInfo(reply: Reply, outputFormat: string): (info: map<string, string>)
    ensures "metadata" in info && info["metadata"] == Ask(reply, "mds metadata", outputFormat)
    ensures Ask(reply, "mds dump", outputFormat) == [] ==>
      && info.Keys == {"metadata", "dump", "status"}
      && info["dump"] == Ask(reply, "fs dump", outputFormat)
      && info["status"] == Ask(reply, "fs status", "json-pretty")
    ensures Ask(reply, "mds dump", outputFormat) != [] ==>
      && info.Keys == {"metadata", "dump", "stat", "map"}
      && info["dump"] == Ask(reply, "mds dump", outputFormat)
      && info["stat"] == Ask(reply, "mds stat", outputFormat)
      && info["map"] == Ask(reply, "mds getmap", outputFormat)
  {
    var info := map["metadata" := Ask(reply, "mds metadata", outputFormat)];
    var info := info["dump" := Ask(reply, "mds dump", outputFormat)];
    if info["dump"] == [] then
      info["dump" := Ask(reply, "fs dump", outputFormat)]["status" := Ask(reply, "fs status", "json-pretty")]
    else
      info["stat" := Ask(reply, "mds stat", outputFormat)]["map" := Ask(reply, "mds getmap", outputFormat)]
  }

  /** The report key under which a category's sub-key is stored. */
  function ReportKey(category: string, key: string): string {
    category + "_" + key + ".json"
  }

  lemma ReportKeyInjective(category: string)
    ensures forall k1, k2 :: ReportKey(category, k1) == ReportKey(category, k2) ==> k1 == k2
  {
    forall k1, k2 | ReportKey(category, k1) == ReportKey(category, k2)
      ensures k1 == k2
    {
      var a := ReportKey(category, k1);
      var n := |category| + 1;
      assert |k1| == |k2|;
      assert k1 == a[n..n + |k1|];
      assert k2 == a[n..n + |k2|];
    }
  }

  /** A category's results stored in the report, one entry per sub-key, values unchanged. */
  function Flatten<V>(category: string, info: map<string, V>): (report: map<string, V>)
    ensures report.Keys == set k | k in info :: ReportKey(category, k)
    ensures forall k :: k in info ==> report[ReportKey(category, k)] == info[k]
    ensures |report| == |info|
  {
    ReportKeyInjective(category);
    var report := map k | k in info :: ReportKey(category, k) := info[k];
    assert |report| == |info| by {
      assert report.Keys == set k | k in info.Keys :: ReportKey(category, k);
      FlattenSize(category, info.Keys);
    }
    report
  }

  lemma {:induction false} FlattenSize(category: string, keys: set<string>)
    ensures |set k | k in keys :: ReportKey(category, k)| == |keys|
    decreases |keys|
  {
    ReportKeyInjective(category);
    if keys != {} {
      var x :| x in keys;
      FlattenSize(category, keys - {x});
      var smaller := set k | k in keys - {x} :: ReportKey(category, k);
      assert (set k | k in keys :: ReportKey(category, k)) == smaller + {ReportKey(category, x)};
    }
  }

  /** The report keys of a category with three sub-keys. */
  lemma FlattenKeys3<V>(category: string, info: map<string, V>, a: string, b: string, c: string)
    requires info.Keys == {a, b, c}
    ensures Flatten(category, info).Keys == {ReportKey(category, a), ReportKey(category, b), ReportKey(category, c)}
  {
    var keys := Flatten(category, info).Keys;
    assert a in info && b in info && c in info;
    forall x | x in keys
      ensures x in {ReportKey(category, a), ReportKey(category, b), ReportKey(category, c)}
    {
      var k :| k in info && x == ReportKey(category, k);
    }
  }

  /** The report keys of a category with four sub-keys. */
  lemma FlattenKeys4<V>(category: string, info: map<string, V>, a: string, b: string, c: string, d: string)
    requires info.Keys == {a, b, c, d}
    ensures Flatten(category, info).Keys ==
      {ReportKey(category, a), ReportKey(category, b), ReportKey(category, c), ReportKey(category, d)}
  {
    var keys := Flatten(category, info).Keys;
    assert a in info && b in info && c in info && d in info;
    forall x | x in keys
      ensures x in {ReportKey(category, a), ReportKey(category, b), ReportKey(category, c), ReportKey(category, d)}
    {
      var k :| k in info && x == ReportKey(category, k);
    }
  }

  /**
    The metadata-service part of the report, as collected with `json` output:
    exactly `mds_metadata`, `mds_dump` and `mds_status` on a newer cluster,
    and `mds_metadata`, `mds_dump`, `mds_stat` and `mds_map` on an older one.
   */
  lemma MdsReportKeys(reply: Reply)
    ensures Ask(reply, "mds dump", "json") == [] ==>
      Flatten("mds", MdsInfo(reply, "json")).Keys == {"mds_metadata.json", "mds_dump.json", "mds_status.json"}
    ensures Ask(reply, "mds dump", "json") != [] ==>
      Flatten("mds", MdsInfo(reply, "json")).Keys == {"mds_metadata.json", "mds_dump.json", "mds_stat.json", "mds_map.json"}
  {
    var info := MdsInfo(reply, "json");
    MdsKeyNames();
    if Ask(reply, "mds dump", "json") == [] {
      FlattenKeys3("mds", info, "metadata", "dump", "status");
    } else {
      FlattenKeys4("mds", info, "metadata", "dump", "stat", "map");
    }
  }

  lemma MdsKeyNames()
    ensures ReportKey("mds", "metadata") == "mds_metadata.json"
    ensures ReportKey("mds", "dump") == "mds_dump.json"
    ensures ReportKey("mds", "status") == "mds_status.json"
    ensures ReportKey("mds", "stat") == "mds_stat.json"
    ensures ReportKey("mds", "map") == "mds_map.json"
  {
  }
}

=== FILE: plain.dfy ===
/**
  Redaction of a configuration dump given as plain text (the `plain` mode of
  `filter_config`). The text is split into lines; the first line is a header
  and is never touched. A matched line is rewritten in one of two ways:

  - in a `ceph.conf`-style file, everything after the last `=` becomes the
    placeholder;
  - in the tabular `config dump` output, the VALUE column is replaced, using
    character offsets of the `VALUE` and `RO` markers in the header.

  Unlike the record mode, patterns here are searched in the CURRENT line,
  which an earlier pattern may already have rewritten.
 */
module PlainRedact {
  import opened Wrappers
  import opened PyStr
  import opened Redact

  /** How a matched line is rewritten. */
  datatype Layout =
    | ConfFile
    | Columns(valueStart: int, valueEnd: int)

  /** The layout of a dump: offsets come from the header line unless the dump is a `ceph.conf` file. */
  function PlainLayout(isConffile: bool, header: string): (layout: Layout)
    ensures isConffile <==> layout.ConfFile?
    ensures layout.Columns? ==> LastOccurrence(header, "VALUE", layout.valueStart)
    ensures layout.Columns? ==> LastOccurrence(header, "RO", layout.valueEnd)
  {
    if isConffile then ConfFile else Columns(RFind(header, "VALUE"), RFind(header, "RO"))
  }

  /** The text a rewritten `ceph.conf` line ends with. */
  const HiddenAssignment: string := " = " + Placeholder

  /** `s` ends with ` = ** HIDDEN **`. */
  predicate EndsHidden(s: string) {
    |s| >= |HiddenAssignment| && s[|s| - |HiddenAssignment|..] == HiddenAssignment
  }

  /**
    A `ceph.conf` line with its value hidden: the part before the last `=`
    is kept. When the line has no `=`, the search yields -1, which as a
    slice bound drops the line's last character.
   */
  function ConfRewrite(line: string): (r: string)
    ensures EndsHidden(r)
    ensures forall j :: OccursAt(line, "=", j) && (forall k :: j < k ==> !OccursAt(line, "=", k)) ==>
      r == line[..j] + HiddenAssignment
    ensures (forall k :: !OccursAt(line, "=", k)) ==>
      r == (if line == [] then [] else line[..|line| - 1]) + HiddenAssignment
  {
    var j := RFind(line, "=");
    assert (forall k :: !OccursAt(line, "=", k)) ==> j == -1;
    SliceTo(line, j) + HiddenAssignment
  }

  /**
    A tabular line with its VALUE column hidden: the text before the column,
    the placeholder, a space, and the single character at the `RO` offset.
    Fails (Python's IndexError) when that offset is outside the line.
   */
  function ColumnRewrite(line: string, valueStart: int, valueEnd: int): (r: Option<string>)
    ensures r.Some? <==> -|line| <= valueEnd < |line|
    ensures r.Some? ==> |r.value| == |SliceTo(line, valueStart)| + |Placeholder| + 2
    ensures r.Some? ==> r.value[..|SliceTo(line, valueStart)|] == SliceTo(line, valueStart)
    ensures r.Some? ==> r.value[|r.value| - 2 - |Placeholder|..|r.value| - 1] == Placeholder + " "
    ensures r.Some? ==> r.value[|r.value| - 1] == line[if valueEnd < 0 then |line| + valueEnd else valueEnd]
  {
    if IndexOk(line, valueEnd) then
      Some(SliceTo(line, valueStart) + Placeholder + " " + CharAt(line, valueEnd))
    else None
  }

  function Rewrite(layout: Layout, line: string): Option<string> {
    match layout
    case ConfFile => Some(ConfRewrite(line))
    case Columns(s, e) => ColumnRewrite(line, s, e)
  }

  /** One pattern applied to one current line. */
  function ApplyToLine(m: Matcher, p: Pattern, layout: Layout, line: string): Option<string> {
    if m(p, line) then Rewrite(layout, line) else Some(line)
  }

  /** A non-header line after the patterns of `filters` were applied in order; None once a rewrite failed. */
  function LineAfter(filters: seq<Pattern>, m: Matcher, layout: Layout, line: string): Option<string>
    decreases |filters|
  {
    if |filters| == 0 then Some(line)
    else
      match LineAfter(filters[..|filters| - 1], m, layout, line)
      case None => None
      case Some(cur) => ApplyToLine(m, filters[|filters| - 1], layout, cur)
  }

  /**
    Reference meaning of the plain redactor: the header is kept and every
    other line goes through all patterns on its own; the run fails when the
    rewrite of some line fails.
   */
  function FilterLinesRef(filters: seq<Pattern>, m: Matcher, layout: Layout, lines: seq<string>): Option<seq<string>> {
    if forall i :: 1 <= i < |lines| ==> LineAfter(filters, m, layout, lines[i]).Some? then
      Some(seq(|lines|, i requires 0 <= i < |lines| =>
        if i == 0 then lines[0] else LineAfter(filters, m, layout, lines[i]).value))
    else None
  }

  /** Once a rewrite has failed, later patterns cannot repair the line. */
  lemma {:induction false} LineAfterFailureSticks(filters: seq<Pattern>, m: Matcher, layout: Layout, line: string, k: nat)
    requires k <= |filters|
    requires LineAfter(filters[..k], m, layout, line).None?
    ensures LineAfter(filters, m, layout, line).None?
    decreases |filters| - k
  {
    if k < |filters| {
      assert filters[..k + 1][..k] == filters[..k];
      LineAfterFailureSticks(filters, m, layout, line, k + 1);
    } else {
      assert filters[..k] == filters;
    }
  }

  /** A `ceph.conf` line can always be rewritten. */
  lemma {:induction false} ConfFileNeverFails(filters: seq<Pattern>, m: Matcher, line: string)
    ensures LineAfter(filters, m, ConfFile, line).Some?
    decreases |filters|
  {
    if |filters| > 0 {
      ConfFileNeverFails(filters[..|filters| - 1], m, line);
    }
  }

  /** A line that no pattern matches is left as it was. */
  lemma {:induction false} UnmatchedLineKept(filters: seq<Pattern>, m: Matcher, layout: Layout, line: string)
    requires forall k :: 0 <= k < |filters| ==> !m(filters[k], line)
    ensures LineAfter(filters, m, layout, line) == Some(line)
    decreases |filters|
  {
    if |filters| > 0 {
      var prefix := filters[..|filters| - 1];
      assert forall k :: 0 <= k < |prefix| ==> prefix[k] == filters[k];
      UnmatchedLineKept(prefix, m, layout, line);
    }
  }

  /** In a `ceph.conf` file, a line that some pattern matches ends up ending with ` = ** HIDDEN **`. */
  lemma {:induction false} MatchedConfLineHidden(filters: seq<Pattern>, m: Matcher, line: string, k: nat)
    requires k < |filters| && m(filters[k], line)
    ensures LineAfter(filters, m, ConfFile, line).Some?
    ensures EndsHidden(LineAfter(filters, m, ConfFile, line).value)
    decreases |filters|
  {
    var n := |filters|;
    var prefix := filters[..n - 1];
    ConfFileNeverFails(prefix, m, line);
    var cur := LineAfter(prefix, m, ConfFile, line).value;
    assert LineAfter(filters, m, ConfFile, line) == ApplyToLine(m, filters[n - 1], ConfFile, cur);
    assert EndsHidden(ConfRewrite(cur));
    if j :| 0 <= j < n - 1 && m(filters[j], line) {
      assert prefix[j] == filters[j];
      MatchedConfLineHidden(prefix, m, line, j);
    } else {
      assert forall j :: 0 <= j < |prefix| ==> prefix[j] == filters[j];
      UnmatchedLineKept(prefix, m, ConfFile, line);
    }
  }

  /**
    When every non-header line went through all patterns, the result is the
    reference one: same length, header kept, unmatched lines kept.
   */
  lemma RefWhenAllSucceed(filters: seq<Pattern>, m: Matcher, layout: Layout, lines: seq<string>, cur: seq<string>)
    requires |cur| == |lines|
    requires |lines| > 0 ==> cur[0] == lines[0]
    requires forall i :: 1 <= i < |lines| ==> LineAfter(filters, m, layout, lines[i]) == Some(cur[i])
    ensures FilterLinesRef(filters, m, layout, lines) == Some(cur)
    ensures forall i :: 1 <= i < |lines| && (forall k :: 0 <= k < |filters| ==> !m(filters[k], lines[i])) ==>
      cur[i] == lines[i]
  {
    assert cur == FilterLinesRef(filters, m, layout, lines).value;
    forall i | 1 <= i < |lines| && (forall k :: 0 <= k < |filters| ==> !m(filters[k], lines[i]))
      ensures cur[i] == lines[i]
    {
      UnmatchedLineKept(filters, m, layout, lines[i]);
    }
  }

  /** One more pattern moves a line one step further. */
  lemma LineAfterStep(filters: seq<Pattern>, k: nat, m: Matcher, layout: Layout, line: string, cur: string)
    requires k < |filters|
    requires LineAfter(filters[..k], m, layout, line) == Some(cur)
    ensures LineAfter(filters[..k + 1], m, layout, line) == ApplyToLine(m, filters[k], layout, cur)
  {
    assert filters[..k + 1][..k] == filters[..k];
  }

  /**
    One pass of a pattern over the lines, from the last index down to 1, as
    the source's inner loop runs it: every line the pattern is found in is
    rewritten, and a failed rewrite stops the run.
   */
  method SweepPattern(filters: seq<Pattern>, k: nat, m: Matcher, layout: Layout, lines: seq<string>, cur: seq<string>)
    returns (next: Option<seq<string>>)
    requires k < |filters|
    requires |cur| == |lines|
    requires |lines| > 0 ==> cur[0] == lines[0]
    requires forall i :: 1 <= i < |lines| ==> LineAfter(filters[..k], m, layout, lines[i]) == Some(cur[i])
    ensures next.None? ==> !layout.ConfFile? && FilterLinesRef(filters, m, layout, lines).None?
    ensures next.Some? ==> |next.value| == |lines|
    ensures next.Some? && |lines| > 0 ==> next.value[0] == lines[0]
    ensures next.Some? ==> forall i :: 1 <= i < |lines| ==>
      LineAfter(filters[..k + 1], m, layout, lines[i]) == Some(next.value[i])
  {
    var out := cur;
    var index := |out| - 1;
    while index > 0
      invariant -1 <= index < |out|
      invariant |out| == |lines|
      invariant |lines| > 0 ==> out[0] == lines[0]
      invariant forall i :: 1 <= i <= index ==> LineAfter(filters[..k], m, layout, lines[i]) == Some(out[i])
      invariant forall i :: index < i < |lines| && 1 <= i ==> LineAfter(filters[..k + 1], m, layout, lines[i]) == Some(out[i])
    {
      var line := out[index];
      LineAfterStep(filters, k, m, layout, lines[index], line);
      if m(filters[k], line) {
        var rewritten := Rewrite(layout, line);
        if rewritten.None? {
          LineAfterFailureSticks(filters, m, layout, lines[index], k + 1);
          return None;
        }
        out := out[index := rewritten.value];
      }
      index := index - 1;
    }
    next := Some(out);
  }

  /**
    The plain redactor as the source runs it: for each pattern in turn, walk
    the lines from the last index down to 1 and rewrite every line the
    pattern is found in. The run keeps the number of lines, never changes
    the header, never fails on a `ceph.conf` file, leaves unmatched lines
    alone, and agrees with the line-by-line reference.
   */
  method FilterLines(filters: seq<Pattern>, m: Matcher, layout: Layout, lines: seq<string>)
    returns (r: Option<seq<string>>)
    ensures r == FilterLinesRef(filters, m, layout, lines)
    ensures r.Some? ==> |r.value| == |lines|
    ensures r.Some? && |lines| > 0 ==> r.value[0] == lines[0]
    ensures layout.ConfFile? ==> r.Some?
    ensures r.Some? ==> forall i :: 1 <= i < |lines| && (forall k :: 0 <= k < |filters| ==> !m(filters[k], lines[i])) ==>
      r.value[i] == lines[i]
  {
    var cur := lines;
    var k := 0;
    while k < |filters|
      invariant 0 <= k <= |filters|
      invariant |cur| == |lines|
      invariant |lines| > 0 ==> cur[0] == lines[0]
      invariant forall i :: 1 <= i < |lines| ==> LineAfter(filters[..k], m, layout, lines[i]) == Some(cur[i])
    {
      var next := SweepPattern(filters, k, m, layout, lines, cur);
      if next.None? {
        return None;
      }
      cur := next.value;
      k := k + 1;
    }
    assert filters[..k] == filters;
    RefWhenAllSucceed(filters, m, layout, lines, cur);
    r := Some(cur);
  }

  lemma FirstCharDiffers(s: string, sub: string, k: int)
    requires sub != [] && (0 <= k < |s| ==> s[k] != sub[0])
    ensures !OccursAt(s, sub, k)
  {
  }

  /** A `ceph.conf` line without `=`: the rewrite drops the line's last character. */
  lemma ConfRewriteWithoutEquals()
    ensures ConfRewrite("secret") == "secre" + HiddenAssignment
  {
    var a := "secret";
    forall k
      ensures !OccursAt(a, "=", k)
    {
      FirstCharDiffers(a, "=", k);
    }
    assert SliceTo(a, -1) == "secre";
  }

  /** Rewriting a rewritten `ceph.conf` line adds one more space before the `=`. */
  lemma ConfRewriteRepeated()
    ensures ConfRewrite("key = v") == "key " + HiddenAssignment
    ensures ConfRewrite("key " + HiddenAssignment) == "key  " + HiddenAssignment
  {
    var a := "key = v";
    assert a[4..5] == "=";
    forall k | 4 < k <= |a| - 1
      ensures !OccursAt(a, "=", k)
    {
      FirstCharDiffers(a, "=", k);
    }
    RFindIsLastOccurrence(a, "=", 4);
    var b := "key " + HiddenAssignment;
    assert b == "key  = ** HIDDEN **";
    assert b[5..6] == "=";
    forall k | 5 < k <= |b| - 1
      ensures !OccursAt(b, "=", k)
    {
      FirstCharDiffers(b, "=", k);
    }
    RFindIsLastOccurrence(b, "=", 5);
  }

  /**
    Two patterns that both match a `ceph.conf` line: the second one finds the
    `=` the first one inserted and adds one more space, so plain-mode
    redaction is not idempotent.
   */
  lemma ConfFileSecondMatchAddsSpace()
    ensures LineAfter(["a", "b"], (p: Pattern, s: string) => true, ConfFile, "key = v") == Some("key  " + HiddenAssignment)
  {
    var fs: seq<Pattern> := ["a", "b"];
    var m: Matcher := (p: Pattern, s: string) => true;
    assert fs[..1] == ["a"] && fs[..1][..0] == [];
    ConfRewriteRepeated();
    assert LineAfter(fs[..1], m, ConfFile, "key = v") == Some("key " + HiddenAssignment);
  }

  /** The column offsets come from the last `VALUE` and the last `RO` of the header. */
  lemma HeaderColumnOffsets()
    ensures PlainLayout(false, "OPTION VALUE  RO") == Columns(7, 14)
  {
    var h := "OPTION VALUE  RO";
    assert h[7..12] == "VALUE";
    assert h[14..16] == "RO";
    forall k | 7 < k <= |h| - 5
      ensures !OccursAt(h, "VALUE", k)
    {
      FirstCharDiffers(h, "VALUE", k);
    }
    RFindIsLastOccurrence(h, "VALUE", 7);
    RFindIsLastOccurrence(h, "RO", 14);
  }

  /**
    A tabular line rewritten with those offsets keeps only the one character
    at the `RO` offset, not the rest of the column.
   */
  lemma ColumnRewriteKeepsOneChar()
    ensures ColumnRewrite("key    secret true", 7, 14) == Some("key    " + Placeholder + " t")
  {
    var s := "key    secret true";
    assert IndexOk(s, 14);
    assert SliceTo(s, 7) == "key    ";
    assert CharAt(s, 14) == "t";
    assert SliceTo(s, 7) + Placeholder + " " + CharAt(s, 14) == "key    " + Placeholder + " t";
  }
}

=== FILE: pystr.dfy ===
/**
  The handful of Python `str` operations the redactor relies on, written out
  with Python's semantics: `rfind`, slicing and indexing with negative
  positions, `splitlines`, `'\n'.join` and the ordering `list.sort()` uses.
 */
module PyStr {

  /** `sub` occurs in `s` starting at position `k`. */
  predicate OccursAt(s: string, sub: string, k: int) {
    0 <= k && k + |sub| <= |s| && s[k..k + |sub|] == sub
  }

  /** `r` is where `sub` last occurs in `s`, or -1 when it does not occur at all. */
  predicate LastOccurrence(s: string, sub: string, r: int) {
    && (r == -1 || OccursAt(s, sub, r))
    && forall k :: r < k <= |s| ==> !OccursAt(s, sub, k)
  }

  /** At most one position is the last occurrence. */
  lemma LastOccurrenceUnique(s: string, sub: string, a: int, b: int)
    requires LastOccurrence(s, sub, a) && LastOccurrence(s, sub, b)
    ensures a == b
  {
  }

  /** Greatest occurrence position of `sub` in `s` that is at most `j`, or -1. */
  function RFindFrom(s: string, sub: string, j: int): (r: int)
    ensures r == -1 || 0 <= r <= j
    ensures r >= 0 ==> OccursAt(s, sub, r)
    ensures forall k :: r < k <= j ==> !OccursAt(s, sub, k)
    decreases j + 1
  {
    if j < 0 then -1
    else if OccursAt(s, sub, j) then j
    else RFindFrom(s, sub, j - 1)
  }

  /** Python's `s.rfind(sub)`: the last position where `sub` starts, or -1. */
  function RFind(s: string, sub: string): (r: int)
    ensures r >= -1
    ensures r >= 0 ==> OccursAt(s, sub, r)
    ensures forall k :: r < k ==> !OccursAt(s, sub, k)
  {
    RFindFrom(s, sub, |s| - |sub|)
  }

  /** A position where `sub` occurs, with no occurrence after it, is what `rfind` returns. */
  lemma RFindIsLastOccurrence(s: string, sub: string, j: int)
    requires OccursAt(s, sub, j)
    requires forall k :: j < k <= |s| - |sub| ==> !OccursAt(s, sub, k)
    ensures RFind(s, sub) == j
  {
  }

  /** Python's `s[:j]`: a negative bound counts from the end, and the bound is clamped to the string. */
  function SliceTo(s: string, j: int): (r: string)
    ensures |r| == if j < 0 then (if |s| + j < 0 then 0 else |s| + j) else (if j < |s| then j else |s|)
    ensures r == s[..|r|]
  {
    if j < 0 then (if |s| + j < 0 then [] else s[..|s| + j])
    else if j < |s| then s[..j]
    else s
  }

  /** Python's `s[i]` does not raise IndexError. */
  predicate IndexOk(s: string, i: int) {
    -|s| <= i < |s|
  }

  /** Python's `s[i]`, a one-character string; a negative index counts from the end. */
  function CharAt(s: string, i: int): (r: string)
    requires IndexOk(s, i)
    ensures |r| == 1
    ensures r[0] == s[if i < 0 then |s| + i else i]
  {
    if i < 0 then [s[|s| + i]] else [s[i]]
  }

  /** The characters `str.splitlines` treats as line boundaries. */
  predicate IsLineBreak(c: char) {
    || '\n' <= c <= '\r'              // U+000A to U+000D
    || '\U{1C}' <= c <= '\U{1E}'
    || c == '\U{85}'
    || '\U{2028}' <= c <= '\U{2029}'
  }

  predicate NoBreaks(s: string) {
    forall k :: 0 <= k < |s| ==> !IsLineBreak(s[k])
  }

  /** Position of the first line boundary in `s`, or `|s|` when there is none. */
  function LineEnd(s: string): (j: nat)
    ensures j <= |s|
    ensures NoBreaks(s[..j])
    ensures NoBreaks(s) ==> j == |s|
  {
    if s == [] || IsLineBreak(s[0]) then 0
    else
      var j := 1 + LineEnd(s[1..]);
      assert s[..j] == [s[0]] + s[1..][..j - 1];
      j
  }

  /** When `s` has a line boundary, `LineEnd` points at it. */
  lemma {:induction false} LineEndAtBreak(s: string)
    ensures LineEnd(s) < |s| ==> IsLineBreak(s[LineEnd(s)])
    decreases |s|
  {
    if s != [] && !IsLineBreak(s[0]) {
      LineEndAtBreak(s[1..]);
    }
  }

  /** Width of the boundary at `j`: `\r\n` counts as one boundary of two characters. */
  function BreakWidth(s: string, j: nat): (w: nat)
    requires j < |s|
    ensures 1 <= w <= 2 && j + w <= |s|
  {
    if s[j] == '\r' && j + 1 < |s| && s[j + 1] == '\n' then 2 else 1
  }

  /**
    Python's `s.splitlines()`: the lines of `s` without their boundaries; a
    boundary at the very end does not start another line.
   */
  function SplitLines(s: string): (lines: seq<string>)
    ensures s == [] <==> lines == []
    ensures lines != [] ==> lines[0] == s[..LineEnd(s)]
    decreases |s|
  {
    if s == [] then []
    else
      var j := LineEnd(s);
      if j == |s| then
        assert s[..j] == s;
        [s]
      else
        [s[..j]] + SplitLines(s[j + BreakWidth(s, j)..])
  }

  /** No line that `splitlines` gives holds a line boundary. */
  lemma {:induction false} SplitLinesHaveNoBreaks(s: string)
    ensures forall i :: 0 <= i < |SplitLines(s)| ==> NoBreaks(SplitLines(s)[i])
    decreases |s|
  {
    if s != [] {
      var j := LineEnd(s);
      if j < |s| {
        var rest := s[j + BreakWidth(s, j)..];
        SplitLinesHaveNoBreaks(rest);
        SplitAtFirstBreak(s);
        var lines := SplitLines(s);
        forall i | 0 <= i < |lines|
          ensures NoBreaks(lines[i])
        {
          if i > 0 {
            assert lines[i] == SplitLines(rest)[i - 1];
          }
        }
      } else {
        assert s[..j] == s;
      }
    }
  }

  /** The number of characters in all the lines together. */
  function TotalLength(lines: seq<string>): nat {
    if lines == [] then 0 else |lines[0]| + TotalLength(lines[1..])
  }

  /** Python's `'\n'.join(lines)`. */
  function JoinLines(lines: seq<string>): (r: string)
    ensures |lines| > 0 ==> |r| == TotalLength(lines) + |lines| - 1
    ensures |lines| > 0 ==> r[..|lines[0]|] == lines[0]
    ensures |lines| > 1 ==> r[|lines[0]|] == '\n'
  {
    if |lines| == 0 then []
    else if |lines| == 1 then lines[0]
    else lines[0] + "\n" + JoinLines(lines[1..])
  }

  lemma JoinCons(a: string, tail: seq<string>)
    requires |tail| > 0
    ensures JoinLines([a] + tail) == a + "\n" + JoinLines(tail)
  {
    assert ([a] + tail)[1..] == tail;
  }

  /** A joined text has as many line boundaries as there are lines after the first. */
  lemma {:induction false} LineEndOfJoined(a: string, rest: string)
    requires NoBreaks(a)
    ensures LineEnd(a + "\n" + rest) == |a|
    decreases |a|
  {
    var s := a + "\n" + rest;
    if a != [] {
      assert s[1..] == a[1..] + "\n" + rest;
      LineEndOfJoined(a[1..], rest);
    }
  }

  /**
    Joining with `\n` and splitting again gives the lines back, as long as no
    line holds a boundary and the last line is not empty.
   */
  lemma {:induction false} SplitJoinRoundTrip(lines: seq<string>)
    requires |lines| > 0 && lines[|lines| - 1] != []
    requires forall i :: 0 <= i < |lines| ==> NoBreaks(lines[i])
    ensures SplitLines(JoinLines(lines)) == lines
  {
    if |lines| == 1 {
      var s := lines[0];
      assert s[..|s|] == s;
      assert NoBreaks(s);
    } else {
      var rest := JoinLines(lines[1..]);
      var s := lines[0] + "\n" + rest;
      assert NoBreaks(lines[0]);
      LineEndOfJoined(lines[0], rest);
      var j := |lines[0]|;
      assert s[j] == '\n';
      assert s[..j] == lines[0];
      assert s[j + 1..] == rest;
      SplitJoinRoundTrip(lines[1..]);
      assert lines == [lines[0]] + lines[1..];
    }
  }

  /**
    Independent description of what splitting and joining does to a text:
    every line boundary becomes `\n`, with `\r\n` counting as one boundary.
   */
  function FoldBreaks(s: string): (r: string)
    ensures |r| <= |s|
    ensures s == [] <==> r == []
    decreases |s|
  {
    if s == [] then []
    else if s[0] == '\r' && |s| > 1 && s[1] == '\n' then "\n" + FoldBreaks(s[2..])
    else if IsLineBreak(s[0]) then "\n" + FoldBreaks(s[1..])
    else [s[0]] + FoldBreaks(s[1..])
  }

  /** After folding, `\n` is the only line boundary left. */
  lemma {:induction false} FoldLeavesOnlyNewlines(s: string)
    ensures forall k :: 0 <= k < |FoldBreaks(s)| && IsLineBreak(FoldBreaks(s)[k]) ==> FoldBreaks(s)[k] == '\n'
    decreases |s|
  {
    if s != [] {
      if s[0] == '\r' && |s| > 1 && s[1] == '\n' {
        FoldLeavesOnlyNewlines(s[2..]);
      } else {
        FoldLeavesOnlyNewlines(s[1..]);
      }
    }
  }

  /** `t` without one trailing `\n`, if it has one. */
  function DropFinalNewline(t: string): (r: string)
    ensures t != [] && t[|t| - 1] == '\n' ==> r + "\n" == t
    ensures t == [] || t[|t| - 1] != '\n' ==> r == t
  {
    if t != [] && t[|t| - 1] == '\n' then t[..|t| - 1] else t
  }

  lemma FoldPlainChar(c: char, rest: string)
    requires !IsLineBreak(c)
    ensures FoldBreaks([c] + rest) == [c] + FoldBreaks(rest)
  {
    assert ([c] + rest)[1..] == rest;
  }

  lemma {:induction false} FoldKeepsPlainText(a: string, rest: string)
    requires NoBreaks(a)
    ensures FoldBreaks(a + rest) == a + FoldBreaks(rest)
    decreases |a|
  {
    if a == [] {
      assert a + rest == rest;
    } else {
      var tail := a[1..];
      assert a + rest == [a[0]] + (tail + rest);
      assert NoBreaks(tail) && !IsLineBreak(a[0]);
      FoldPlainChar(a[0], tail + rest);
      FoldKeepsPlainText(tail, rest);
      assert a + FoldBreaks(rest) == [a[0]] + (tail + FoldBreaks(rest));
    }
  }

  /** Text whose only boundary is `\n` is left as it is by folding. */
  lemma {:induction false} FoldOnlyNewlines(s: string)
    requires forall k :: 0 <= k < |s| && IsLineBreak(s[k]) ==> s[k] == '\n'
    ensures FoldBreaks(s) == s
    decreases |s|
  {
    if s != [] {
      FoldOnlyNewlines(s[1..]);
    }
  }

  /** Folding a text whose first line boundary starts `t` turns that boundary into one `\n`. */
  lemma FoldAtBreak(pre: string, t: string)
    requires NoBreaks(pre) && t != [] && IsLineBreak(t[0])
    ensures FoldBreaks(pre + t) == pre + "\n" + FoldBreaks(t[BreakWidth(t, 0)..])
  {
    FoldKeepsPlainText(pre, t);
    FoldBreakHead(t);
  }

  lemma FoldBreakHead(t: string)
    requires t != [] && IsLineBreak(t[0])
    ensures FoldBreaks(t) == "\n" + FoldBreaks(t[BreakWidth(t, 0)..])
  {
  }

  /** Splitting a text with a boundary gives its first line, then the lines after that boundary. */
  lemma SplitAtFirstBreak(s: string)
    requires LineEnd(s) < |s|
    ensures SplitLines(s) == [s[..LineEnd(s)]] + SplitLines(s[LineEnd(s) + BreakWidth(s, LineEnd(s))..])
  {
  }

  lemma DropFinalNewlineAfter(a: string, t: string)
    requires t != []
    ensures DropFinalNewline(a + "\n" + t) == a + "\n" + DropFinalNewline(t)
  {
    var u := a + "\n" + t;
    assert u[|u| - 1] == t[|t| - 1];
    if t[|t| - 1] == '\n' {
      assert u[..|u| - 1] == a + "\n" + t[..|t| - 1];
    }
  }

  /**
    Splitting into lines and joining with `\n` folds every boundary to `\n`
    and drops a boundary at the very end of the text.
   */
  lemma {:induction false} JoinSplitFolds(s: string)
    ensures JoinLines(SplitLines(s)) == DropFinalNewline(FoldBreaks(s))
    decreases |s|
  {
    if s != [] {
      var j := LineEnd(s);
      if j == |s| {
        assert s[..j] == s;
        FoldKeepsPlainText(s, []);
        assert s + [] == s;
      } else {
        var rest := s[j + BreakWidth(s, j)..];
        var t := s[j..];
        assert s == s[..j] + t;
        assert t[BreakWidth(t, 0)..] == rest;
        LineEndAtBreak(s);
        FoldAtBreak(s[..j], t);
        SplitAtFirstBreak(s);
        if rest == [] {
          var folded := s[..j] + "\n";
          assert FoldBreaks(s) == folded;
          assert folded[..|folded| - 1] == s[..j];
        } else {
          JoinSplitFolds(rest);
          JoinCons(s[..j], SplitLines(rest));
          DropFinalNewlineAfter(s[..j], FoldBreaks(rest));
        }
      }
    }
  }

  /**
    Splitting and joining again gives the text back when `\n` is its only kind
    of boundary, except that one `\n` at the very end is dropped.
   */
  lemma JoinSplitRoundTrip(s: string)
    requires forall k :: 0 <= k < |s| && IsLineBreak(s[k]) ==> s[k] == '\n'
    ensures s == [] || s[|s| - 1] != '\n' ==> JoinLines(SplitLines(s)) == s
    ensures s != [] && s[|s| - 1] == '\n' ==> JoinLines(SplitLines(s)) == s[..|s| - 1]
  {
    JoinSplitFolds(s);
    FoldOnlyNewlines(s);
  }

  lemma FoldCrLf(a: string, b: string)
    requires NoBreaks(a) && NoBreaks(b)
    ensures FoldBreaks(a + "\r\n" + b + "\n") == a + "\n" + b + "\n"
  {
    var nl: string := "\n";
    var crlf := "\r\n" + (b + nl);
    assert a + "\r\n" + b + "\n" == a + crlf;
    assert BreakWidth(crlf, 0) == 2 && crlf[2..] == b + nl;
    FoldAtBreak(a, crlf);
    FoldKeepsPlainText(b, nl);
    assert FoldBreaks(nl) == nl by {
      assert nl[1..] == [];
    }
  }

  /** A Windows line ending becomes `\n`, and a trailing newline is dropped. */
  lemma CrLfFolded(a: string, b: string)
    requires NoBreaks(a) && NoBreaks(b)
    ensures JoinLines(SplitLines(a + "\r\n" + b + "\n")) == a + "\n" + b
  {
    var folded := a + "\n" + b + "\n";
    FoldCrLf(a, b);
    assert folded[..|folded| - 1] == a + "\n" + b;
    JoinSplitFolds(a + "\r\n" + b + "\n");
  }

  /** The ordering Python uses for `str` values: lexicographic by code point. */
  predicate StrLe(a: string, b: string): (r: bool)
    ensures a <= b ==> r
    ensures a != [] && b == [] ==> !r
    decreases |a|
  {
    if a == [] then true
    else if b == [] then false
    else if a[0] != b[0] then a[0] < b[0]
    else StrLe(a[1..], b[1..])
  }

  lemma {:induction false} StrLeReflexive(a: string)
    ensures StrLe(a, a)
    decreases |a|
  {
    if a != [] {
      StrLeReflexive(a[1..]);
    }
  }

  lemma {:induction false} StrLeTotal(a: string, b: string)
    ensures StrLe(a, b) || StrLe(b, a)
    decreases |a|
  {
    if a != [] && b != [] && a[0] == b[0] {
      StrLeTotal(a[1..], b[1..]);
    }
  }

  lemma {:induction false} StrLeTransitive(a: string, b: string, c: string)
    requires StrLe(a, b) && StrLe(b, c)
    ensures StrLe(a, c)
    decreases |a|
  {
    if a != [] && b != [] && c != [] && a[0] == b[0] && b[0] == c[0] {
      StrLeTransitive(a[1..], b[1..], c[1..]);
    }
  }

  lemma {:induction false} StrLeAntisymmetric(a: string, b: string)
    requires StrLe(a, b) && StrLe(b, a)
    ensures a == b
    decreases |a|
  {
    if a != [] && b != [] {
      StrLeAntisymmetric(a[1..], b[1..]);
      assert a == [a[0]] + a[1..] && b == [b[0]] + b[1..];
    }
  }

  /** A shared prefix does not change the order of two strings. */
  lemma {:induction false} StrLeSharedPrefix(p: string, a: string, b: string)
    ensures StrLe(p + a, p + b) == StrLe(a, b)
    decreases |p|
  {
    if p != [] {
      assert (p + a)[1..] == p[1..] + a && (p + b)[1..] == p[1..] + b;
      StrLeSharedPrefix(p[1..], a, b);
    } else {
      assert p + a == a && p + b == b;
    }
  }
}

=== FILE: redact.dfy ===
/**
  Redaction of a configuration dump given as records (the `json` and
  `json-pretty` modes of `filter_config`): every record whose name, section or
  value matches one of the configured patterns gets its value replaced by a
  fixed placeholder.

  Regular-expression search is not modelled: a `Matcher` is any function
  deciding whether a pattern is found in a string, so every property below
  holds for whatever patterns and regex engine the caller uses.
 */
module Redact {

  /** A regular expression, as given on the command line or in the defaults. */
  type Pattern = string

  /** `m(p, s)` holds when a search for pattern `p` succeeds somewhere in `s`. */
  type Matcher = (Pattern, string) -> bool

  /** The text a sensitive value is replaced with. */
  const Placeholder: string := "** HIDDEN **"

  /** The built-in patterns, each case-insensitive. */
  const DefaultConfigFilters: seq<Pattern> := ["(?i)password", "(?i)key", "(?i)cert"]

  /**
    The patterns one collection run filters with: the built-in ones first,
    then the caller's custom ones in the order given.
   */
  function ConfigFilters(custom: seq<Pattern>): (filters: seq<Pattern>)
    ensures |filters| == |DefaultConfigFilters| + |custom|
    ensures forall k :: 0 <= k < |DefaultConfigFilters| ==> filters[k] == DefaultConfigFilters[k]
    ensures forall k :: 0 <= k < |custom| ==> filters[|DefaultConfigFilters| + k] == custom[k]
  {
    DefaultConfigFilters + custom
  }

  /** One record of the configuration dump. */
  datatype Entry = Entry(name: string, section: string, value: string)

  /** Pattern `p` is found in at least one of the three fields of `e`. */
  predicate PatternHits(m: Matcher, p: Pattern, e: Entry) {
    m(p, e.name) || m(p, e.section) || m(p, e.value)
  }

  /** Some pattern of `filters` is found in one of the fields of `e`. */
  predicate AnyFilterHits(filters: seq<Pattern>, m: Matcher, e: Entry) {
    exists k :: 0 <= k < |filters| && PatternHits(m, filters[k], e)
  }

  /**
    One pattern applied to one record: the fields are tried in the order
    name, section, value, and the first one that matches hides the value.
   */
  function ApplyPattern(m: Matcher, p: Pattern, e: Entry): (r: Entry)
    ensures r.name == e.name && r.section == e.section
    ensures PatternHits(m, p, e) ==> r.value == Placeholder
    ensures !PatternHits(m, p, e) ==> r == e
  {
    if m(p, e.name) then e.(value := Placeholder)
    else if m(p, e.section) then e.(value := Placeholder)
    else if m(p, e.value) then e.(value := Placeholder)
    else e
  }

  /** Reference meaning of redaction for one record: hidden exactly when some filter hits it. */
  function Redacted(filters: seq<Pattern>, m: Matcher, e: Entry): Entry {
    if AnyFilterHits(filters, m, e) then e.(value := Placeholder) else e
  }

  /** Reference meaning of redaction for a whole dump, record by record. */
  function RedactRecords(filters: seq<Pattern>, m: Matcher, records: seq<Entry>): seq<Entry> {
    seq(|records|, i requires 0 <= i < |records| => Redacted(filters, m, records[i]))
  }

  /**
    Applying one more pattern to an already redacted record gives the
    redaction under the longer filter list: a hidden value stays hidden,
    and otherwise the new pattern alone decides.
   */
  lemma RedactedStep(filters: seq<Pattern>, p: Pattern, m: Matcher, e: Entry)
    ensures ApplyPattern(m, p, Redacted(filters, m, e)) == Redacted(filters + [p], m, e)
  {
    var longer := filters + [p];
    if AnyFilterHits(filters, m, e) {
      var k :| 0 <= k < |filters| && PatternHits(m, filters[k], e);
      assert longer[k] == filters[k];
    } else if PatternHits(m, p, e) {
      assert longer[|filters|] == p;
    } else {
      forall k | 0 <= k < |longer|
        ensures !PatternHits(m, longer[k], e)
      {
        if k < |filters| {
          assert longer[k] == filters[k];
        }
      }
    }
  }

  /**
    The redactor as the source runs it: for each pattern in turn, walk the
    records from the last index down to 0 and apply the pattern to each.
    The result is the reference redaction: same length, same names and
    sections, and a value is replaced by the placeholder exactly when some
    pattern hits the record's original fields.
   */
  method FilterRecords(filters: seq<Pattern>, m: Matcher, records: seq<Entry>) returns (r: seq<Entry>)
    ensures |r| == |records|
    ensures forall i :: 0 <= i < |records| ==>
      r[i].name == records[i].name && r[i].section == records[i].section
    ensures forall i :: 0 <= i < |records| ==>
      r[i].value == records[i].value || r[i].value == Placeholder
    ensures forall i :: 0 <= i < |records| && AnyFilterHits(filters, m, records[i]) ==>
      r[i].value == Placeholder
    ensures forall i :: 0 <= i < |records| && !AnyFilterHits(filters, m, records[i]) ==>
      r[i] == records[i]
    ensures r == RedactRecords(filters, m, records)
  {
    r := records;
    var k := 0;
    while k < |filters|
      invariant 0 <= k <= |filters|
      invariant |r| == |records|
      invariant forall i :: 0 <= i < |records| ==> r[i] == Redacted(filters[..k], m, records[i])
    {
      var index := |r| - 1;
      while index >= 0
        invariant -1 <= index < |r|
        invariant |r| == |records|
        invariant forall i :: index < i < |records| ==> r[i] == Redacted(filters[..k + 1], m, records[i])
        invariant forall i :: 0 <= i <= index ==> r[i] == Redacted(filters[..k], m, records[i])
      {
        RedactedStep(filters[..k], filters[k], m, records[index]);
        assert filters[..k] + [filters[k]] == filters[..k + 1];
        r := r[index := ApplyPattern(m, filters[k], r[index])];
        index := index - 1;
      }
      k := k + 1;
    }
    assert filters[..k] == filters;
  }

  /** Redacting an already redacted dump with the same filters changes nothing. */
  lemma RedactIdempotent(filters: seq<Pattern>, m: Matcher, records: seq<Entry>)
    ensures RedactRecords(filters, m, RedactRecords(filters, m, records)) == RedactRecords(filters, m, records)
  {
    var once := RedactRecords(filters, m, records);
    var twice := RedactRecords(filters, m, once);
    forall i | 0 <= i < |records|
      ensures twice[i] == once[i]
    {
      var e := records[i];
      if AnyFilterHits(filters, m, e) {
        assert once[i] == e.(value := Placeholder);
      } else {
        assert once[i] == e;
      }
    }
  }

  /**
    With the run's filter list, a record is hidden exactly when a built-in
    pattern or a custom pattern hits it.
   */
  lemma ConfigFiltersHit(custom: seq<Pattern>, m: Matcher, e: Entry)
    ensures AnyFilterHits(ConfigFilters(custom), m, e) <==>
      AnyFilterHits(DefaultConfigFilters, m, e) || AnyFilterHits(custom, m, e)
  {
    var filters := ConfigFilters(custom);
    var n := |DefaultConfigFilters|;
    if AnyFilterHits(filters, m, e) {
      var k :| 0 <= k < |filters| && PatternHits(m, filters[k], e);
      if k >= n {
        assert custom[k - n] == filters[k];
      }
    }
    if AnyFilterHits(custom, m, e) {
      var k :| 0 <= k < |custom| && PatternHits(m, custom[k], e);
      assert filters[n + k] == custom[k];
    }
  }
}

=== FILE: wrappers.dfy ===
/** Result types shared by the rest of the model. */
module Wrappers {

  /** A value that may be missing. */
  datatype Option<+T> = None | Some(value: T)

  /** Either a computed value or the error that stopped the computation. */
  datatype Result<+R, +E> = Success(value: R) | Failure(error: E)
}
